=== FILE: README.md ===
# aridi entry point — a Dafny model

aridi is a host and network reconnaissance tool. Its entry point `aridi.py` reads the
command line and creates the shared report. It then runs a precheck, which loads the
port-name table and checks privileges. After that it runs the enabled information-gathering
stages, the network scan and the graph export, and prints or saves one report view. It
finishes by writing the log file and exiting.

This project models the decisions the entry point makes and the order in which it makes
them:

- `wrappers.dfy`, module `Wrappers`: `Option` and `Call`. A `Call` is what a call into code
  outside the model did: it returned a value, or it raised an exception with an opaque text
  and trace.
- `reporting.dfy`, module `Reporting`: log entries (severity and message) and the `Report`
  class. The class holds the log and the verbosity level. It appends one entry per
  `report.log` call, and the entries that code outside the model logs through it. This module also has entry-count and append helpers.
- `options.dfy`, module `Options`:
  - normalisation of the gathering switches;
  - the `-V` guard;
  - the choice of report view and its category arguments.
- `precheck.dfy`, module `Precheck`:
  - the precheck phase;
  - scan gating on the port-name table;
  - the privilege check and the test of the answer to "continue anyway? (y/N)";
  - a pure description (`PrecheckPhase`) and an imperative version that logs step by step
    (`RunPrecheck`).
- `stages.dfy`, module `Stages`:
  - the six stage blocks (general, specific, volatile, other, scan, graph), run in that
    fixed order, each only when its switch is on;
  - each stage body logs its own entries through the shared report, between the stage's
    start entry and the entries the entry point logs when the body is over;
  - a stage that raises logs ERROR, DEBUG, DEBUG and the run goes on;
  - `StagesLog` is the fold that specifies the imperative `RunStages`.
- `aridi.dfy`, module `Aridi`:
  - the report output (`OutputPhase`, imperative `Emit`);
  - a whole run as a function (`Execute`);
  - the imperative entry point `Run`, proved equal to it;
  - lemmas relating the phases.

The environment of a run is a parameter (`Env`). It gives, for each outside call, what
happened:
- creating the report;
- creating the precheck object;
- `loadports` and the number of names it loaded;
- whether the user is root;
- the answer read from the console;
- each stage: the entries its body logged, then whether it returned (and what) or raised;
- rendering each view;
- saving the report file.

A run's observable result (`RunResult`) has four parts:
- the log file written by `finish`;
- the final verbosity;
- where the report text went;
- the exit: status 0, or a message with a non-zero status.

Behaviour of the code worth noting:
- When the port-name table fails to load, the code switches the scan off. It does not
  scan with absent service names (`aridi.py:101-108`).
- `-V 0` leaves the verbosity unchanged because of the truthiness test
  (`aridi.py:75-77`).
- A declined privilege prompt ends the run with status 0 and writes the log. It produces
  no report (`aridi.py:118-120`).
- The infrastructure view takes no category arguments (`aridi.py:214`).

## Model

| member | source | states |
|---|---|---|
| Options.Normalize | aridi.py:79-89 | Closed form of every switch after normalisation. specific, volatile and carving are on iff `--all` or they were given. general is on iff `--all`, `--specific` or `--general` was given, or neither volatile nor carving was. all, scan and graph are unchanged. |
| Options.NormalizeExtends | aridi.py:79-89 | Normalisation never turns a switch off. Afterwards at least one of general, volatile and carving is on. Normalising twice equals normalising once. |
| Options.NormalizeImplications | aridi.py:80-86 | `--all` gives general, specific, volatile and carving. `--specific` without `--all` gives general and keeps volatile and carving as given. |
| Options.AdjustVerbosity | aridi.py:75-77 | An absent `-V` and `-V 0` keep the current level. Any other level replaces it. |
| Aridi.VerbosityLog | aridi.py:75-76 | One DEBUG entry is logged exactly when `-V` is truthy, and none otherwise. |
| Reporting.DigitStringValue | aridi.py:102 | The decimal text of a count denotes exactly that count, and it starts with '0' only for zero, as Python's `str` writes it. |
| Reporting.IntStringValue | aridi.py:76 | The text of an integer is '-' when negative, then digits denoting its absolute value, with no leading zero unless the value is zero, as Python's `str` writes it. |
| Options.SelectView | aridi.py:194-229 | View priority is full > detailed > infrastructure > summarized, with summarized as the default. Every non-infrastructure view gets the normalised categories, with other = carving and infrastructure = scan. |
| Options.ExactlyOneView | aridi.py:62-69 | With at most one of the exclusive output switches, the view chosen is exactly the one requested. Summarized is chosen for `-os` and when no switch is given. |
| Precheck.Lower | aridi.py:118 | The model's lower-casing keeps the length and maps every character independently. |
| Precheck.LStripSpec | aridi.py:118 | Stripping on the left leaves a suffix of the input, removes only whitespace, and leaves a result that is empty or starts with a non-whitespace character. |
| Precheck.Continues | aridi.py:118-120 | The run never goes on after an empty answer. When the answer starts with a non-whitespace character, it goes on iff that character is 'y' or 'Y'. |
| Precheck.AnswersYesSkipsSpace | aridi.py:118 | Leading whitespace does not change whether the answer reads as yes. |
| Precheck.ContinuesIff | aridi.py:118-120 | The run goes on iff the first non-whitespace character of the answer is 'y' or 'Y'. Whitespace here is the set that Python's `lstrip` removes. |
| Precheck.GateScan | aridi.py:101-108 | A failed port-name load turns the scan switch off and logs an ERROR. The message mentions the disabled scan iff the scan was on. A successful load leaves the switches alone and logs an INFO. |
| Precheck.LoadPortNames | aridi.py:101-108 | Appends exactly the gating entry to the log. Returns the gated switches. |
| Precheck.Privileges | aridi.py:110-122 | The check proceeds iff the user is root or answered yes. It is declined iff a non-root user answered otherwise, and aborts only when reading the answer raised. A non-root run logs the restricted-privileges WARNING. |
| Precheck.CheckPrivileges | aridi.py:110-122 | Appends exactly the privilege check's entries. Returns its verdict. |
| Precheck.PrecheckPhase | aridi.py:96-126 | Every precheck logs at least four entries. A precheck that aborts carries the precheck failure message. Its switches, verdict and entries are stated by the three lemmas below. |
| Precheck.PrecheckFlags | aridi.py:101-108 | The precheck changes at most the scan switch. Once the load has returned, scan stays on iff it was on and the table loaded. |
| Precheck.PrecheckVerdict | aridi.py:96-126 | The run goes on iff nothing raised and the user is root or agreed. It stops with status 0 iff a non-root user declined. Otherwise it aborts with the precheck failure message. |
| Precheck.PrecheckEntries | aridi.py:96-126 | The precheck log starts with "aridi started" and "starting precheck...". It ends with "Precheck finished" when the run goes on, and with the privilege WARNING when the user declined. When something raised, it ends with a DEBUG entry holding the trace of the call that raised: the precheck constructor, `loadports`, or `input()`. |
| Precheck.RunPrecheck | aridi.py:96-126 | The step-by-step precheck appends exactly the entries of `PrecheckPhase`. It returns that phase's switches and verdict. |
| Stages.Closing | aridi.py:133-137 | After a stage's body, the entry point logs one INFO when the body returned, or one ERROR followed by two DEBUG entries when it raised. |
| Stages.StageLog | aridi.py:129-137 | A stage's block starts with its start INFO, holds exactly the entries its body logged right after it, and has two more entries when the stage returned or four more when it raised. |
| Stages.Block | aridi.py:129-191 | A stage logs something iff its switch is on. When it does, the first entry is its start INFO. |
| Stages.StagesLog | aridi.py:129-191 | When the first stage of the list is switched on, the log of the list starts with that stage's start INFO. |
| Stages.StagesLogEmpty | aridi.py:129-191 | A list of stages logs nothing iff none of its stages is switched on. |
| Stages.Failures | aridi.py:129-191 | A stage is listed as failed iff it is in the list, is switched on, and raised. There are at most as many failures as stages. |
| Stages.LogClosing | aridi.py:133-137 | The handler appends exactly the closing entries of the stage. |
| Stages.StagesLogAt | aridi.py:129-191 | Fixed order: the entries of the k-th stage sit after those of every earlier stage and before those of every later one. |
| Stages.FailureContinues | aridi.py:129-191 | A stage that runs and raises appends its start INFO, then the entries its body logged, then exactly ERROR, DEBUG (error text), DEBUG (trace). The earlier stages' entries come before it and the later stages' entries follow. |
| Stages.OtherStagesUnaffected | aridi.py:129-191 | With the other stages' outcomes fixed, what stage k does leaves their entries unchanged: the entry point never skips a stage because an earlier one raised. |
| Stages.StageErrors | aridi.py:129-137 | A stage's block holds the ERROR entries its body logged, plus exactly one more when the stage raised. |
| Stages.ErrorsAreFailures | aridi.py:129-191 | The number of ERROR entries in the stage log is the number of enabled stages that raised plus the number of ERROR entries the enabled stages' bodies logged. |
| Stages.RunStage | aridi.py:129-137 | One stage's try/except block appends nothing when its switch is off. Otherwise it appends the start INFO, then the body's entries, then the closing entries: exactly that stage's block. |
| Stages.RunStageAt | aridi.py:129-191 | Running the k-th stage extends the log of stages 0..k-1 to the log of stages 0..k. |
| Stages.RunStages | aridi.py:129-191 | The six stage blocks, including what each body logs, append exactly the fold of the stage order: general, specific, volatile, other, scan, graph. |
| Aridi.OutputPhase | aridi.py:194-233 | Output succeeds iff rendering the selected view returned and, when FILE is non-empty, saving returned. On success the text is saved (logging "<FILE> saved") or printed. On failure nothing is shown and one DEBUG entry is logged. |
| Aridi.Emit | aridi.py:194-233 | The step-by-step output appends exactly the entries of `OutputPhase` and returns its result. |
| Aridi.Execute | aridi.py:34-240 | A log file is written iff the report could be created. The verbosity is the `-V` adjusted default. A report is shown only when the precheck let the run go on. A failed report creation exits with its message. |
| Aridi.StageFailuresAreRecoverable | aridi.py:129-240 | With the same rendering and saving outcomes, no stage outcome changes the exit, the verbosity or the report output, and a log file is written either way. |
| Aridi.ProceedingRun | aridi.py:129-240 | A run that goes on past the precheck shows exactly what the report output produced, printed or saved. Its log file starts with the -V entry, the precheck's entries and the whole stage log, in that order. |
| Aridi.CompletionLogged | aridi.py:230-240 | The log ends with the INFO "aridi.py completed successfully" iff the precheck let the run go on and the report was produced. |
| Aridi.ExitStatus | aridi.py:116-240 | A run exits with status 0 iff the report was created and either the user declined at the prompt or the run completed. |
| Aridi.NoPortNamesNoScan | aridi.py:101-229 | When the port-name table does not load, the scan stage logs nothing and no view asks for the infrastructure category. |
| Aridi.HasFile | aridi.py:199-236 | A FILE counts only when it is given and non-empty. An absent or empty FILE sends the report to the console. |
| Reporting.Report.Log | aridi.py:97-98 | One `report.log` call appends exactly one entry with the given severity and message and changes nothing else in the log. |
| Reporting.Report.LogAll | aridi.py:132 | What a stage body logs through the shared report is appended after the existing entries, in order. |
| Aridi.Run | aridi.py:34-240 | The imperative entry point yields exactly the result of `Execute`: log file, verbosity, report output and exit. |

## Left out

- Argument parsing (`aridi.py:42-72`) is not modelled. The parsed command line is the input `Cli`. The exclusivity of the `-o*` switches is assumed only where `ExactlyOneView` states it. The exception handler of the parsing block (`aridi.py:90-93`) has nothing left to catch once parsing is outside the model.
- Console output (`print`) is not modelled. The console input is the `answer` field of the host, including an `input()` call that raises.
- `finish` and `save` (`aridi.py:23-31`) are abstract sinks. The log file is the entry sequence at the time `finish` is called. How `view_log` formats it, and partially written files, are not modelled.
- `sys.exit` becomes the `Exit` value: status 0, or a message with a non-zero status. Numeric exit codes are not modelled.
- Exception texts and tracebacks are opaque strings supplied by the environment.
- The modules `reporting`, `gathering0` to `gathering4`, `scan` and `graph` are not part of this model. Their behaviour is given by the environment as returned or raised outcomes. The entries a stage body logs are part of the model; what a stage body stores in the report besides log entries is not, and the report text is a function of the requested view only. Verbosity filtering and rendering are not modelled.
- `DefaultVerbosity` is 2, as the `-V` help text (`aridi.py:59-61`) says. The `Reporting` class that really sets it is not part of this model.
- `args.scan = None` after a failed load is modelled as false. The stage switch tests treat both alike. The view calls (`aridi.py:198`, `207`, `224`) receive `None` itself as `infrastructure=`, where the model passes false; rendering is outside the model.
- Each stage's outcome (`Env.gather`) is a free parameter, fixed independently of the other stages. In the program the stage bodies share `report` and `precheck` (`aridi.py:132-184`), so what a later stage logs or returns can depend on what earlier stages stored; that dependency is not modelled.
- `Call.Raised` stands only for exceptions derived from `Exception`. A `KeyboardInterrupt` or `SystemExit` from an outside call, such as Ctrl-C at the y/N prompt (`aridi.py:118`) or during a stage, escapes every `except Exception` handler and ends the run without logging and without writing the log; this is not modelled.
- `Precheck.LowerChar` lower-cases only ASCII letters, one character to one character. Python's `str.lower` is not character by character in general: `'İ'.lower()` has two characters, and `Σ` lower-cases differently depending on its position in a word. The continue decision depends only on whether the first non-whitespace character lower-cases to 'y', and only 'y' and 'Y' do, so the decision is the same as Python's `str.lower`.
- Exceptions raised by `report.log` or `len(precheck.portnames)` are not modelled. Logging is taken never to fail.
- The `execution=False` argument of the view calls is constant and not modelled.

=== FILE: aridi.dfy ===
/** The entry point of aridi: configure the run from the command line, run the precheck,
    the enabled stages and the report output, and finish by writing the log. */
module Aridi {
  import opened Wrappers
  import opened Reporting
  import opened Options
  import opened Precheck
  import opened Stages

  /** The parsed command line: switches, -V level, output switches and the FILE argument. */
  datatype Cli = Cli(flags: Flags, verbose: Option<int>, output: OutputFlags, filename: Option<string>)

  /** What the code outside the entry point does when it is called: creating the report,
      the precheck, each stage, rendering each view, and saving the report file. */
  datatype Env = Env(reporting: Call<()>, host: Host, gather: Stage -> StageRun,
                     render: View -> Call<string>, save: Call<()>)

  /** Where the report text went. */
  datatype Shown = Printed(text: string) | Saved(file: string, text: string)

  /** How the process ends: status 0, or a message and a non-zero status. */
  datatype Exit = ExitOk | ExitWith(message: string)

  /** The observable outcome of a run: the log file written by `finish` (absent when the
      report could not be created), the final verbosity, the report output and the exit. */
  datatype RunResult = RunResult(logFile: Option<seq<Entry>>, verbosity: Option<int>,
                                 shown: Option<Shown>, exit: Exit)

  datatype OutputResult = OutputResult(entries: seq<Entry>, shown: Option<Shown>, ok: bool)

  const ReportFailed := "ERROR: Something goes wrong with the report. See the log for more information."
  const Completed := "aridi.py completed successfully"

  function ReportingFailed(error: string): (message: string)
  {
    "ERROR: Failed to create the reporting class.\n" + error
  }

  /** `if args.filename:` — an absent or empty FILE sends the report to the console. */
  predicate HasFile(filename: Option<string>)
    ensures HasFile(filename) ==> filename.Some? && |filename.value| > 0
    ensures filename == None || filename == Some("") ==> !HasFile(filename)
  {
    filename.Some? && filename.value != ""
  }

  /** The entry logged when -V changes the verbosity. */
  function VerbosityLog(level: Option<int>): (r: seq<Entry>)
    ensures |r| == (if Truthy(level) then 1 else 0)
    ensures Truthy(level) ==> r[0].severity == Debug
  {
    if Truthy(level) then [Entry(Debug, "Verbosity level " + IntString(level.value))] else []
  }

  /** Rendering the selected view and sending it to the console or to FILE. */
  function OutputPhase(cli: Cli, f: Flags, env: Env): (r: OutputResult)
    ensures r.ok <==>
      env.render(SelectView(cli.output, f)).Returned? && (HasFile(cli.filename) ==> env.save.Returned?)
    ensures r.ok ==> var text := env.render(SelectView(cli.output, f)).value;
      r.shown == Some(if HasFile(cli.filename) then Saved(cli.filename.value, text) else Printed(text))
    ensures r.ok ==> r.entries == if HasFile(cli.filename) then [Entry(Info, cli.filename.value + " saved")] else []
    ensures !r.ok ==> r.shown == None && |r.entries| == 1 && r.entries[0].severity == Debug
  {
    match env.render(SelectView(cli.output, f))
    case Raised(e, _) => OutputResult([Entry(Debug, e)], None, false)
    case Returned(text) =>
      if !HasFile(cli.filename) then OutputResult([], Some(Printed(text)), true)
      else
        match env.save
        case Raised(e, _) => OutputResult([Entry(Debug, e)], None, false)
        case Returned(_) =>
          OutputResult([Entry(Info, cli.filename.value + " saved")], Some(Saved(cli.filename.value, text)), true)
  }

  /** A whole run. */
  function Execute(cli: Cli, env: Env): (r: RunResult)
    ensures r.logFile.Some? <==> env.reporting.Returned?
    ensures r.verbosity.Some? <==> env.reporting.Returned?
    ensures r.verbosity.Some? ==> r.verbosity.value == AdjustVerbosity(DefaultVerbosity, cli.verbose)
    ensures r.shown.Some? ==> PrecheckPhase(Normalize(cli.flags), env.host).verdict.Proceed?
    ensures env.reporting.Raised? ==> r.exit == ExitWith(ReportingFailed(env.reporting.error))
  {
    match env.reporting
    case Raised(e, _) => RunResult(None, None, None, ExitWith(ReportingFailed(e)))
    case Returned(_) =>
      var verbosity := AdjustVerbosity(DefaultVerbosity, cli.verbose);
      var p := PrecheckPhase(Normalize(cli.flags), env.host);
      var checked := VerbosityLog(cli.verbose) + p.entries;
      match p.verdict
      case Aborted(m) => RunResult(Some(checked), Some(verbosity), None, ExitWith(m))
      case Declined => RunResult(Some(checked), Some(verbosity), None, ExitOk)
      case Proceed =>
        var gathered := checked + StagesLog(p.flags, env.gather, StageOrder);
        var o := OutputPhase(cli, p.flags, env);
        if o.ok then
          RunResult(Some(gathered + o.entries + [Entry(Info, Completed)]), Some(verbosity), o.shown, ExitOk)
        else
          RunResult(Some(gathered + o.entries), Some(verbosity), None, ExitWith(ReportFailed))
  }

  /** Stage failures are recoverable: with the same rendering and saving outcomes, no stage
      outcome changes the exit, the verbosity or the report output, and a log is written
      either way. */
  lemma StageFailuresAreRecoverable(cli: Cli, env: Env, gather: Stage -> StageRun)
    ensures var r := Execute(cli, env); var r' := Execute(cli, env.(gather := gather));
      r.exit == r'.exit && r.shown == r'.shown && r.verbosity == r'.verbosity &&
      r.logFile.Some? == r'.logFile.Some?
  {
    var env' := env.(gather := gather);
    var p := PrecheckPhase(Normalize(cli.flags), env.host);
    assert PrecheckPhase(Normalize(cli.flags), env'.host) == p;
    assert OutputPhase(cli, p.flags, env') == OutputPhase(cli, p.flags, env);
  }

  /** A run that goes on past the precheck shows exactly what the report output produced,
      whatever the stages did, and its log file holds the -V entry, the precheck's entries and
      the stage log, in that order, before the output's entries. */
  lemma ProceedingRun(cli: Cli, env: Env)
    requires env.reporting.Returned? && PrecheckPhase(Normalize(cli.flags), env.host).verdict.Proceed?
    ensures var r := Execute(cli, env); var p := PrecheckPhase(Normalize(cli.flags), env.host);
      var prefix := VerbosityLog(cli.verbose) + p.entries + StagesLog(p.flags, env.gather, StageOrder);
      && r.shown == OutputPhase(cli, p.flags, env).shown
      && r.logFile.Some? && |r.logFile.value| >= |prefix| && r.logFile.value[..|prefix|] == prefix
  {
    var p := PrecheckPhase(Normalize(cli.flags), env.host);
    var prefix := VerbosityLog(cli.verbose) + p.entries + StagesLog(p.flags, env.gather, StageOrder);
    var o := OutputPhase(cli, p.flags, env);
    if o.ok {
      PrefixOfAppend(prefix, o.entries + [Entry(Info, Completed)]);
      AppendAssoc(prefix, o.entries, [Entry(Info, Completed)]);
    } else {
      PrefixOfAppend(prefix, o.entries);
    }
  }

  /** The log file of a run that created its report: the -V entry and the precheck's entries,
      followed, when the run went on, by the stage log, the output's entries and, when the
      output succeeded, the completion entry. */
  lemma RunLog(cli: Cli, env: Env)
    requires env.reporting.Returned?
    ensures var p := PrecheckPhase(Normalize(cli.flags), env.host);
      var o := OutputPhase(cli, p.flags, env);
      var checked := VerbosityLog(cli.verbose) + p.entries;
      Execute(cli, env).logFile == Some(
        if !p.verdict.Proceed? then checked
        else if o.ok then checked + StagesLog(p.flags, env.gather, StageOrder) + o.entries + [Entry(Info, Completed)]
        else checked + StagesLog(p.flags, env.gather, StageOrder) + o.entries)
  {
  }

  /** The entries logged before the stages never end on an INFO entry. */
  lemma CheckedEndsNotInfo(cli: Cli, env: Env)
    ensures var checked := VerbosityLog(cli.verbose) + PrecheckPhase(Normalize(cli.flags), env.host).entries;
      checked != [] && checked[|checked| - 1].severity != Info
  {
    PrecheckEndsNotInfo(Normalize(cli.flags), env.host);
    LastOfAppend(VerbosityLog(cli.verbose), PrecheckPhase(Normalize(cli.flags), env.host).entries);
  }

  /** A run that created its report ends its log with the completion entry exactly when the
      precheck let it go on and the report was produced. */
  lemma CompletionLogged(cli: Cli, env: Env)
    requires env.reporting.Returned?
    ensures var log := Execute(cli, env).logFile.value;
      var p := PrecheckPhase(Normalize(cli.flags), env.host);
      |log| > 0 &&
      (log[|log| - 1] == Entry(Info, Completed) <==> p.verdict.Proceed? && OutputPhase(cli, p.flags, env).ok)
  {
    var p := PrecheckPhase(Normalize(cli.flags), env.host);
    var o := OutputPhase(cli, p.flags, env);
    var log := Execute(cli, env).logFile.value;
    var checked := VerbosityLog(cli.verbose) + p.entries;
    RunLog(cli, env);
    CheckedEndsNotInfo(cli, env);
    if !p.verdict.Proceed? {
      assert log == checked;
    } else if o.ok {
      LastOfAppend(checked + StagesLog(p.flags, env.gather, StageOrder) + o.entries, [Entry(Info, Completed)]);
    } else {
      LastOfAppend(checked + StagesLog(p.flags, env.gather, StageOrder), o.entries);
    }
  }

  /** A run exits with status 0 exactly when it completed or the user declined to go on. */
  lemma ExitStatus(cli: Cli, env: Env)
    ensures var r := Execute(cli, env); var p := PrecheckPhase(Normalize(cli.flags), env.host);
      r.exit == ExitOk <==>
        env.reporting.Returned? &&
        (p.verdict == Declined || (p.verdict.Proceed? && OutputPhase(cli, p.flags, env).ok))
  {
  }

  /** When the port-name table does not load, the scan stage logs nothing and the report
      view is not asked for the infrastructure category. */
  lemma NoPortNamesNoScan(cli: Cli, env: Env)
    requires env.host.init.Returned? && env.host.loadPorts == Returned(false)
    ensures var p := PrecheckPhase(Normalize(cli.flags), env.host);
      var v := SelectView(cli.output, p.flags);
      && Block(p.flags, env.gather, Scan) == []
      && (!v.Infrastructure? ==> !v.categories.infrastructure)
  {
    PrecheckFlags(Normalize(cli.flags), env.host);
  }

  /** The report output: render the selected view, then print it or save it to FILE. */
  method Emit(report: Report, cli: Cli, f: Flags, env: Env) returns (shown: Option<Shown>, ok: bool)
    modifies report`entries
    ensures report.entries == old(report.entries) + OutputPhase(cli, f, env).entries
    ensures shown == OutputPhase(cli, f, env).shown && ok == OutputPhase(cli, f, env).ok
  {
    var view := SelectView(cli.output, f);
    match env.render(view)
    case Raised(e, _) =>
      report.Log(Debug, e);
      return None, false;
    case Returned(text) =>
      if !HasFile(cli.filename) {
        return Some(Printed(text)), true;
      }
      match env.save
      case Raised(e, _) =>
        report.Log(Debug, e);
        return None, false;
      case Returned(_) =>
        report.Log(Info, cli.filename.value + " saved");
        return Some(Saved(cli.filename.value, text)), true;
  }

  /** The entry point, step by step. */
  method Run(cli: Cli, env: Env) returns (r: RunResult)
    ensures r == Execute(cli, env)
  {
    if env.reporting.Raised? {
      return RunResult(None, None, None, ExitWith(ReportingFailed(env.reporting.error)));
    }
    var report := new Report();
    if Truthy(cli.verbose) {
      report.Log(Debug, "Verbosity level " + IntString(cli.verbose.value));
      report.verbose := cli.verbose.value;
    }
    assert report.entries == VerbosityLog(cli.verbose);
    var flags := Normalize(cli.flags);
    var gated, verdict := RunPrecheck(report, flags, env.host);
    if verdict.Aborted? {
      return RunResult(Some(report.entries), Some(report.verbose), None, ExitWith(verdict.message));
    }
    if verdict == Declined {
      return RunResult(Some(report.entries), Some(report.verbose), None, ExitOk);
    }
    RunStages(report, gated, env.gather);
    var shown, ok := Emit(report, cli, gated, env);
    if !ok {
      return RunResult(Some(report.entries), Some(report.verbose), None, ExitWith(ReportFailed));
    }
    report.Log(Info, Completed);
    r := RunResult(Some(report.entries), Some(report.verbose), shown, ExitOk);
  }
}

=== FILE: options.dfy ===
/** Run configuration decided from the command line: the gathering switches, the
    verbosity level and the output view. */
module Options {
  import opened Wrappers

  /** The switches -a, -g, -s, -v, -c, --scan and --graph after parsing. */
  datatype Flags = Flags(all: bool, general: bool, specific: bool, volatile: bool,
                         carving: bool, scan: bool, graph: bool)

  /** Every switch that is on in `f` is on in `g`. */
  predicate Covers(g: Flags, f: Flags)
  {
    (f.all ==> g.all) && (f.general ==> g.general) && (f.specific ==> g.specific) &&
    (f.volatile ==> g.volatile) && (f.carving ==> g.carving) && (f.scan ==> g.scan) &&
    (f.graph ==> g.graph)
  }

  /** --all turns on every gathering category, --specific implies --general, and with
      no category chosen --general is the default. */
  function Normalize(f: Flags): (r: Flags)
    ensures r.all == f.all && r.scan == f.scan && r.graph == f.graph
    ensures r.specific == (f.all || f.specific)
    ensures r.volatile == (f.all || f.volatile)
    ensures r.carving == (f.all || f.carving)
    ensures r.general == (f.all || f.specific || f.general || (!f.volatile && !f.carving))
  {
    if f.all then f.(general := true, specific := true, volatile := true, carving := true)
    else if f.specific then f.(general := true)
    else if !f.volatile && !f.carving then f.(general := true)
    else f
  }

  /** Normalisation only adds switches, always leaves a gathering category on, and is
      stable: normalising twice changes nothing more. */
  lemma NormalizeExtends(f: Flags)
    ensures Covers(Normalize(f), f)
    ensures Normalize(f).general || Normalize(f).volatile || Normalize(f).carving
    ensures Normalize(Normalize(f)) == Normalize(f)
  {
  }

  /** The two documented implications: --all means every category, --specific (without
      --all) means general as well, volatile and carving as given. */
  lemma NormalizeImplications(f: Flags)
    ensures f.all ==> var r := Normalize(f); r.general && r.specific && r.volatile && r.carving
    ensures !f.all && f.specific ==>
      var r := Normalize(f); r.general && r.volatile == f.volatile && r.carving == f.carving
  {
  }

  /** Python's truth test on the -V value: an absent option (None) and 0 are both false. */
  predicate Truthy(level: Option<int>)
  {
    level.Some? && level.value != 0
  }

  /** The verbosity after -V: replaced by the given level only when that level is truthy. */
  function AdjustVerbosity(current: int, level: Option<int>): (r: int)
    ensures (level == None || level == Some(0)) ==> r == current
    ensures level.Some? && level.value != 0 ==> r == level.value
  {
    if Truthy(level) then level.value else current
  }

  /** The mutually exclusive switches -of, -os, -od and -oi. */
  datatype OutputFlags = OutputFlags(full: bool, summarized: bool, detailed: bool,
                                     infrastructure: bool)

  /** What the argument parser guarantees of the exclusive group. */
  predicate AtMostOne(o: OutputFlags)
  {
    (if o.full then 1 else 0) + (if o.summarized then 1 else 0) +
    (if o.detailed then 1 else 0) + (if o.infrastructure then 1 else 0) <= 1
  }

  /** The categories handed to a report view. */
  datatype Categories = Categories(general: bool, specific: bool, volatile: bool, other: bool,
                                   infrastructure: bool)

  /** One call of the report's view functions; the infrastructure view takes no categories. */
  datatype View =
    | Full(categories: Categories)
    | Detailed(categories: Categories)
    | Infrastructure
    | Summarized(categories: Categories)

  /** The view a run produces, given the output switches and the normalised flags. */
  function SelectView(o: OutputFlags, f: Flags): (v: View)
    ensures o.full ==> v.Full?
    ensures !o.full && o.detailed ==> v.Detailed?
    ensures !o.full && !o.detailed && o.infrastructure ==> v.Infrastructure?
    ensures !o.full && !o.detailed && !o.infrastructure ==> v.Summarized?
    ensures !v.Infrastructure? ==>
      v.categories == Categories(f.general, f.specific, f.volatile, f.carving, f.scan)
  {
    var c := Categories(general := f.general, specific := f.specific, volatile := f.volatile,
                        other := f.carving, infrastructure := f.scan);
    if o.full then Full(c)
    else if o.detailed then Detailed(c)
    else if o.infrastructure then Infrastructure
    else Summarized(c)
  }

  /** With at most one output switch, the selected view is exactly the one asked for, and
      the summarized view is chosen when -os or no switch is given. */
  lemma ExactlyOneView(o: OutputFlags, f: Flags)
    requires AtMostOne(o)
    ensures SelectView(o, f).Full? <==> o.full
    ensures SelectView(o, f).Detailed? <==> o.detailed
    ensures SelectView(o, f).Infrastructure? <==> o.infrastructure
    ensures SelectView(o, f).Summarized? <==> !o.full && !o.detailed && !o.infrastructure
  {
  }
}

=== FILE: precheck.dfy ===
/** The precheck phase: loading the port-name table, which may switch the scan off, and
    the privilege check with its "continue anyway? (y/N)" question. */
module Precheck {
  import opened Wrappers
  import opened Reporting
  import opened Options

  /** Characters Python's `str.isspace` accepts, the ones `lstrip()` removes. */
  predicate IsSpace(c: char)
  {
    c in {'\t', '\n', '\U{0B}', '\U{0C}', '\r', '\U{1C}', '\U{1D}', '\U{1E}', '\U{1F}', ' ',
          '\U{85}', '\U{A0}', '\U{1680}', '\U{2028}', '\U{2029}', '\U{202F}', '\U{205F}',
          '\U{3000}'}
    || ('\U{2000}' <= c <= '\U{200A}')
  }

  /** Lower case of one character, on the ASCII letters. */
  function LowerChar(c: char): (r: char)
    ensures r == 'y' <==> c == 'y' || c == 'Y'
    ensures IsSpace(r) <==> IsSpace(c)
  {
    if 'A' <= c <= 'Z' then (c as int + 32) as char else c
  }

  /** `s.lower()`, character by character. */
  function Lower(s: string): (r: string)
    ensures |r| == |s| && forall i :: 0 <= i < |s| ==> r[i] == LowerChar(s[i])
  {
    if s == [] then [] else [LowerChar(s[0])] + Lower(s[1..])
  }

  /** `s.lstrip()`: the suffix of `s` after its leading whitespace. */
  function LStrip(s: string): (r: string)
  {
    if s != [] && IsSpace(s[0]) then LStrip(s[1..]) else s
  }

  /** What `lstrip` promises: the result is a suffix of the input, everything removed is
      whitespace, and the result does not start with whitespace. */
  lemma {:induction false} LStripSpec(s: string)
    ensures var r := LStrip(s);
      && |r| <= |s| && r == s[|s| - |r|..]
      && (forall j :: 0 <= j < |s| - |r| ==> IsSpace(s[j]))
      && (r != [] ==> !IsSpace(r[0]))
  {
    if s != [] && IsSpace(s[0]) {
      var t := s[1..];
      LStripSpec(t);
      var r := LStrip(t);
      assert LStrip(s) == r;
      assert t[|t| - |r|..] == s[|s| - |r|..];
      forall j | 0 <= j < |s| - |r|
        ensures IsSpace(s[j])
      {
        if j > 0 {
          assert s[j] == t[j - 1];
        }
      }
    }
  }

  /** The run goes on after the privilege question unless the answer, lower-cased and
      stripped on the left, is empty or does not start with 'y'. */
  predicate Continues(answer: string)
    ensures Continues(answer) ==> answer != []
    ensures answer != [] && !IsSpace(answer[0]) ==> (Continues(answer) <==> answer[0] == 'y' || answer[0] == 'Y')
  {
    var ans := LStrip(Lower(answer));
    !(|ans| == 0 || ans[0] != 'y')
  }

  /** Reference reading of the question: the first character of the answer that is not
      whitespace is 'y' or 'Y'. */
  ghost predicate AnswersYes(answer: string)
  {
    exists k :: 0 <= k < |answer| && (answer[k] == 'y' || answer[k] == 'Y') &&
                forall j :: 0 <= j < k ==> IsSpace(answer[j])
  }

  /** Leading whitespace does not change the reference reading. */
  lemma AnswersYesSkipsSpace(answer: string)
    requires answer != [] && IsSpace(answer[0])
    ensures AnswersYes(answer) <==> AnswersYes(answer[1..])
  {
    var rest := answer[1..];
    if AnswersYes(rest) {
      var k :| 0 <= k < |rest| && (rest[k] == 'y' || rest[k] == 'Y') &&
               forall j :: 0 <= j < k ==> IsSpace(rest[j]);
      assert answer[k + 1] == rest[k];
      forall j | 0 <= j < k + 1 ensures IsSpace(answer[j]) {
        if j > 0 { assert answer[j] == rest[j - 1]; }
      }
    }
    if AnswersYes(answer) {
      var k :| 0 <= k < |answer| && (answer[k] == 'y' || answer[k] == 'Y') &&
               forall j :: 0 <= j < k ==> IsSpace(answer[j]);
      assert rest[k - 1] == answer[k];
      forall j | 0 <= j < k - 1 ensures IsSpace(rest[j]) {
        assert rest[j] == answer[j + 1];
      }
    }
  }

  /** The answer lets the run continue exactly when its first non-whitespace character is
      'y' or 'Y'. */
  lemma {:induction false} ContinuesIff(answer: string)
    ensures Continues(answer) <==> AnswersYes(answer)
  {
    if answer == [] {
    } else if IsSpace(answer[0]) {
      assert Lower(answer)[1..] == Lower(answer[1..]);
      ContinuesIff(answer[1..]);
      AnswersYesSkipsSpace(answer);
    } else {
      assert LStrip(Lower(answer)) == Lower(answer);
      assert answer[0] == 'y' || answer[0] == 'Y' ==> AnswersYes(answer);
    }
  }

  /** The message logged when the port-name table cannot be loaded. */
  const NoPortNames := "aridi can't load port names."

  /** Scan gating: a failed port-name load switches the scan off and logs an error; a
      successful one leaves the flags alone and logs how many names were loaded. */
  function GateScan(f: Flags, loaded: bool, portNames: nat): (r: (Flags, Entry))
    ensures r.0 == f.(scan := f.scan && loaded)
    ensures r.1.severity == if loaded then Info else Error
    ensures !loaded ==> (r.1.message == NoPortNames + " Scan flag was disabled" <==> f.scan)
  {
    if loaded then (f, Entry(Info, IntString(portNames) + " port names loaded"))
    else if f.scan then (f.(scan := false), Entry(Error, NoPortNames + " Scan flag was disabled"))
    else (f, Entry(Error, NoPortNames))
  }

  /** What the precheck sees of the host: constructing the precheck object, loading the
      port-name table, the number of names loaded, whether the user is root, and the
      answer read from the console. */
  datatype Host = Host(init: Call<()>, loadPorts: Call<bool>, portNames: nat, root: bool,
                       answer: Call<string>)

  /** How the precheck ends: the run goes on, the user declined (exit status 0), or an
      exception aborted the run with a message. */
  datatype Verdict = Proceed | Declined | Aborted(message: string)

  datatype PrecheckResult = PrecheckResult(flags: Flags, entries: seq<Entry>, verdict: Verdict)

  const PrecheckFailed := "ERROR: Failed in the precheck stage. See the log for more information."

  /** The entries an exception handler of the entry point logs: its text, then its trace. */
  function HandlerEntries(error: string, trace: string): (r: seq<Entry>)
  {
    [Entry(Debug, error), Entry(Debug, trace)]
  }

  const RestrictedWarning := "aridy.py has been invoked with restricted privileges"

  /** The privilege check: a root run goes on; otherwise a warning is logged and the
      answer to the question decides. Gives the entries logged and how the check ends. */
  function Privileges(root: bool, answer: Call<string>): (r: (seq<Entry>, Verdict))
    ensures r.1.Proceed? <==> root || (answer.Returned? && Continues(answer.value))
    ensures r.1 == Declined <==> !root && answer.Returned? && !Continues(answer.value)
    ensures r.1.Aborted? ==> r.1.message == PrecheckFailed
    ensures !root ==> |r.0| >= 2 && r.0[1] == Entry(Warning, RestrictedWarning)
  {
    if root then ([Entry(Debug, "Executed with uid 0"), Entry(Debug, "Precheck finished")], Proceed)
    else
      var warned := [Entry(Debug, "Executed as a user"), Entry(Warning, RestrictedWarning)];
      match answer
      case Raised(e, t) => (warned + HandlerEntries(e, t), Aborted(PrecheckFailed))
      case Returned(a) =>
        if Continues(a) then (warned + [Entry(Debug, "Precheck finished")], Proceed)
        else (warned, Declined)
  }

  /** The precheck phase as a whole: the flags it leaves, the entries it logs, and how it ends. */
  function PrecheckPhase(f: Flags, h: Host): (r: PrecheckResult)
    ensures |r.entries| >= 4
    ensures r.verdict.Aborted? ==> r.verdict.message == PrecheckFailed
  {
    var started := [Entry(Info, "aridi started"), Entry(Debug, "starting precheck...")];
    match h.init
    case Raised(e, t) => PrecheckResult(f, started + HandlerEntries(e, t), Aborted(PrecheckFailed))
    case Returned(_) =>
      match h.loadPorts
      case Raised(e, t) => PrecheckResult(f, started + HandlerEntries(e, t), Aborted(PrecheckFailed))
      case Returned(loaded) =>
        var gate := GateScan(f, loaded, h.portNames);
        var privileges := Privileges(h.root, h.answer);
        PrecheckResult(gate.0, started + [gate.1] + privileges.0, privileges.1)
  }

  /** The precheck changes at most the scan switch: it turns it off when the port-name
      table did not load, and leaves it as given when the table loaded. */
  lemma PrecheckFlags(f: Flags, h: Host)
    ensures var r := PrecheckPhase(f, h);
      && r.flags == f.(scan := r.flags.scan) && (r.flags.scan ==> f.scan)
      && (h.init.Returned? && h.loadPorts.Returned? ==> r.flags.scan == (f.scan && h.loadPorts.value))
  {
  }

  /** The run goes on after the precheck when nothing raised and the user is root or agreed
      to go on; it stops with status 0 when a non-root user declined; otherwise it aborts. */
  lemma PrecheckVerdict(f: Flags, h: Host)
    ensures var r := PrecheckPhase(f, h);
      && (r.verdict.Proceed? <==>
            h.init.Returned? && h.loadPorts.Returned? &&
            (h.root || (h.answer.Returned? && Continues(h.answer.value))))
      && (r.verdict == Declined <==>
            h.init.Returned? && h.loadPorts.Returned? && !h.root &&
            h.answer.Returned? && !Continues(h.answer.value))
      && (r.verdict.Aborted? ==> r.verdict.message == PrecheckFailed)
  {
  }

  /** The precheck's entries start with the start-up entries and end with "Precheck
      finished", the privilege warning, or the trace of what raised. */
  lemma PrecheckEntries(f: Flags, h: Host)
    ensures var r := PrecheckPhase(f, h); var n := |r.entries|;
      && n >= 3
      && r.entries[..2] == [Entry(Info, "aridi started"), Entry(Debug, "starting precheck...")]
      && (r.verdict.Proceed? ==> r.entries[n - 1] == Entry(Debug, "Precheck finished"))
      && (r.verdict == Declined ==> r.entries[n - 1] == Entry(Warning, RestrictedWarning))
      && (r.verdict.Aborted? ==>
            (h.init.Raised? && r.entries[n - 1] == Entry(Debug, h.init.trace)) ||
            (h.init.Returned? && h.loadPorts.Raised? && r.entries[n - 1] == Entry(Debug, h.loadPorts.trace)) ||
            (h.init.Returned? && h.loadPorts.Returned? && h.answer.Raised? &&
             r.entries[n - 1] == Entry(Debug, h.answer.trace)))
  {
  }

  /** The precheck never ends on an INFO entry, so its last entry cannot be mistaken for the
      completion entry of a whole run. */
  lemma PrecheckEndsNotInfo(f: Flags, h: Host)
    ensures var r := PrecheckPhase(f, h);
      |r.entries| > 0 && r.entries[|r.entries| - 1].severity != Info
  {
    PrecheckEntries(f, h);
  }

  /** The privilege check, logging step by step into the report. */
  method CheckPrivileges(report: Report, root: bool, answer: Call<string>) returns (verdict: Verdict)
    modifies report`entries
    ensures report.entries == old(report.entries) + Privileges(root, answer).0
    ensures verdict == Privileges(root, answer).1
  {
    if root {
      report.Log(Debug, "Executed with uid 0");
    } else {
      report.Log(Debug, "Executed as a user");
      report.Log(Warning, RestrictedWarning);
      if answer.Raised? {
        report.Log(Debug, answer.error);
        report.Log(Debug, answer.trace);
        return Aborted(PrecheckFailed);
      }
      if !Continues(answer.value) {
        return Declined;
      }
    }
    report.Log(Debug, "Precheck finished");
    verdict := Proceed;
  }

  /** Scan gating, logging into the report. */
  method LoadPortNames(report: Report, f: Flags, loaded: bool, portNames: nat) returns (g: Flags)
    modifies report`entries
    ensures report.entries == old(report.entries) + [GateScan(f, loaded, portNames).1]
    ensures g == GateScan(f, loaded, portNames).0
  {
    g := f;
    if loaded {
      report.Log(Info, IntString(portNames) + " port names loaded");
    } else {
      var message := NoPortNames;
      if g.scan {
        message := message + " Scan flag was disabled";
        g := g.(scan := false);
      }
      report.Log(Error, message);
    }
  }

  /** The precheck phase, logging step by step into the report. */
  method RunPrecheck(report: Report, f: Flags, h: Host) returns (g: Flags, verdict: Verdict)
    modifies report`entries
    ensures report.entries == old(report.entries) + PrecheckPhase(f, h).entries
    ensures g == PrecheckPhase(f, h).flags && verdict == PrecheckPhase(f, h).verdict
  {
    report.Log(Info, "aridi started");
    report.Log(Debug, "starting precheck...");
    if h.init.Raised? {
      report.Log(Debug, h.init.error);
      report.Log(Debug, h.init.trace);
      return f, Aborted(PrecheckFailed);
    }
    if h.loadPorts.Raised? {
      report.Log(Debug, h.loadPorts.error);
      report.Log(Debug, h.loadPorts.trace);
      return f, Aborted(PrecheckFailed);
    }
    g := LoadPortNames(report, f, h.loadPorts.value, h.portNames);
    verdict := CheckPrivileges(report, h.root, h.answer);
  }
}

=== FILE: reporting.dfy ===
/** The shared report object of a run, seen only through what the entry point does with it:
    it appends log entries and it holds the verbosity level. */
module Reporting {

  datatype Severity = Debug | Info | Warning | Error

  /** One `report.log(severity, message)` call. */
  datatype Entry = Entry(severity: Severity, message: string)

  /** Verbosity level a report starts with, as the help text of -V documents it. */
  const DefaultVerbosity: int := 2

  class Report {
    var entries: seq<Entry>
    var verbose: int

    constructor ()
      ensures entries == [] && verbose == DefaultVerbosity
    {
      entries := [];
      verbose := DefaultVerbosity;
    }

    /** Appends one entry to the log; logging never fails. */
    method Log(severity: Severity, message: string)
      modifies this`entries
      ensures entries == old(entries) + [Entry(severity, message)]
    {
      entries := entries + [Entry(severity, message)];
    }

    /** Entries logged one after another through this report by code outside the model
        that shares it, such as a stage's body. */
    method LogAll(logged: seq<Entry>)
      modifies this`entries
      ensures entries == old(entries) + logged
    {
      entries := entries + logged;
    }
  }

  /** Number of entries of the given severity. */
  function CountSeverity(severity: Severity, log: seq<Entry>): (count: nat)
  {
    if log == [] then 0
    else (if log[0].severity == severity then 1 else 0) + CountSeverity(severity, log[1..])
  }

  lemma {:induction false} CountSeverityAppend(severity: Severity, a: seq<Entry>, b: seq<Entry>)
    ensures CountSeverity(severity, a + b) == CountSeverity(severity, a) + CountSeverity(severity, b)
  {
    if a == [] {
      assert a + b == b;
    } else {
      assert (a + b)[1..] == a[1..] + b;
      CountSeverityAppend(severity, a[1..], b);
    }
  }

  /** Regrouping appended entries; stated over plain entries so that the proofs using them
      need not look at what the messages say. */
  lemma AppendAssoc(a: seq<Entry>, b: seq<Entry>, c: seq<Entry>)
    ensures a + b + c == a + (b + c)
  {
  }

  lemma AppendThree(log: seq<Entry>, a: Entry, b: Entry, c: Entry)
    ensures log + [a] + [b] + [c] == log + [a, b, c]
  {
  }

  /** A start entry, a body and closing entries appended one after another form one block. */
  lemma AppendBlock(log: seq<Entry>, start: Entry, body: seq<Entry>, closing: seq<Entry>)
    ensures log + [start] + body + closing == log + ([start] + body + closing)
  {
  }

  /** What was logged first is still at the front after more is appended. */
  lemma PrefixOfAppend(a: seq<Entry>, b: seq<Entry>)
    ensures |a + b| >= |a| && (a + b)[..|a|] == a
  {
  }

  /** The last entry after appending a non-empty block is the block's last. */
  lemma LastOfAppend(a: seq<Entry>, b: seq<Entry>)
    requires b != []
    ensures |a + b| > 0 && (a + b)[|a + b| - 1] == b[|b| - 1]
  {
  }

  /** Decimal digits of a natural number, most significant first. */
  function DigitString(n: nat): (s: string)
    ensures |s| > 0 && forall i :: 0 <= i < |s| ==> '0' <= s[i] <= '9'
  {
    var d := (('0' as int) + n % 10) as char;
    if n < 10 then [d] else DigitString(n / 10) + [d]
  }

  /** The number a string of decimal digits denotes, most significant first. */
  ghost function DigitsValue(s: string): (value: int)
  {
    if s == [] then 0 else 10 * DigitsValue(s[..|s| - 1]) + (s[|s| - 1] as int - '0' as int)
  }

  /** The digits denote the number, and only zero itself is written with a leading zero. */
  lemma {:induction false} DigitStringValue(n: nat)
    ensures DigitsValue(DigitString(n)) == n
    ensures DigitString(n)[0] == '0' <==> n == 0
  {
    var s := DigitString(n);
    if n >= 10 {
      DigitStringValue(n / 10);
      assert s[..|s| - 1] == DigitString(n / 10);
    }
  }

  /** Decimal text of an integer, as Python's `str` writes it. */
  function IntString(n: int): (s: string)
    ensures |s| > 0 && (s[0] == '-' <==> n < 0)
  {
    if n < 0 then "-" + DigitString(-n) else DigitString(n)
  }

  /** The text of an integer is its sign, when negative, then the digits of its absolute value
      without leading zeros. */
  lemma IntStringValue(n: int)
    ensures n >= 0 ==> DigitsValue(IntString(n)) == n
    ensures n < 0 ==> DigitsValue(IntString(n)[1..]) == -n
    ensures var digits := if n < 0 then IntString(n)[1..] else IntString(n);
      |digits| > 0 && (digits[0] == '0' ==> n == 0)
  {
    if n < 0 {
      DigitStringValue(-n);
      assert IntString(n)[1..] == DigitString(-n);
    } else {
      DigitStringValue(n);
    }
  }
}

=== FILE: stages.dfy ===
/** The gathering, scan and graph stages of a run: each runs only when its switch is on,
    in a fixed order, and a stage that raises is logged and does not stop the ones after it. */
module Stages {
  import opened Wrappers
  import opened Reporting
  import opened Options

  datatype Stage = General | Specific | Volatile | Other | Scan | Graph

  /** The order in which a run tries the stages. */
  const StageOrder: seq<Stage> := [General, Specific, Volatile, Other, Scan, Graph]

  /** The switch that turns a stage on; the "other" stage is the carving switch. */
  predicate Enabled(f: Flags, s: Stage)
  {
    match s
    case General => f.general
    case Specific => f.specific
    case Volatile => f.volatile
    case Other => f.carving
    case Scan => f.scan
    case Graph => f.graph
  }

  function StartMessage(s: Stage): (message: string)
  {
    match s
    case General => "Starting general information gathering..."
    case Specific => "Starting specific information gathering..."
    case Volatile => "Starting volatile information gathering..."
    case Other => "Starting other information gathering..."
    case Scan => "Starting scan stage..."
    case Graph => "Creating graph..."
  }

  /** The message of a stage that returned; only the graph stage looks at what it returned. */
  function DoneMessage(s: Stage, value: bool): (message: string)
  {
    match s
    case General => "General information gathering finished"
    case Specific => "Specific information gathering finished"
    case Volatile => "Volatile information gathering finished"
    case Other => "Other information gathering finished"
    case Scan => "Scan stage finished"
    case Graph => if value then "Graph generated" else "Graph didn't generate"
  }

  function FailedMessage(s: Stage): (message: string)
  {
    match s
    case General => "General information gathering failed"
    case Specific => "Specific information gathering failed"
    case Volatile => "Volatile information gathering failed"
    case Other => "Other information gathering failed"
    case Scan => "Scan stage failed"
    case Graph => "Graph creation failed"
  }

  /** What one stage's body did: the entries it logged through the shared report, in order,
      and then whether it returned (with its result) or raised. */
  datatype StageRun = StageRun(logged: seq<Entry>, result: Call<bool>)

  /** The entries the entry point logs once a stage's body is over: the done INFO if it
      returned, or the failed ERROR and the exception's text and trace as DEBUG if it raised. */
  function Closing(s: Stage, c: Call<bool>): (r: seq<Entry>)
    ensures |r| == if c.Raised? then 3 else 1
    ensures r[0].severity == if c.Raised? then Error else Info
    ensures c.Raised? ==> r[1].severity == Debug && r[2].severity == Debug
  {
    match c
    case Returned(v) => [Entry(Info, DoneMessage(s, v))]
    case Raised(e, t) => [Entry(Error, FailedMessage(s)), Entry(Debug, e), Entry(Debug, t)]
  }

  /** The entries one stage appends when it runs: its start INFO, whatever its body logged,
      then the closing entries. */
  function StageLog(s: Stage, run: StageRun): (r: seq<Entry>)
    ensures |r| == |run.logged| + if run.result.Raised? then 4 else 2
    ensures r[0] == Entry(Info, StartMessage(s))
    ensures r[1..|run.logged| + 1] == run.logged
  {
    [Entry(Info, StartMessage(s))] + run.logged + Closing(s, run.result)
  }

  /** What one stage contributes: nothing when its switch is off. */
  function Block(f: Flags, outcome: Stage -> StageRun, s: Stage): (r: seq<Entry>)
    ensures r != [] <==> Enabled(f, s)
    ensures r != [] ==> r[0] == Entry(Info, StartMessage(s))
  {
    if Enabled(f, s) then StageLog(s, outcome(s)) else []
  }

  /** The entries a sequence of stages appends, in order. */
  function StagesLog(f: Flags, outcome: Stage -> StageRun, stages: seq<Stage>): (r: seq<Entry>)
    ensures stages != [] && Enabled(f, stages[0]) ==> r != [] && r[0] == Entry(Info, StartMessage(stages[0]))
  {
    if stages == [] then [] else Block(f, outcome, stages[0]) + StagesLog(f, outcome, stages[1..])
  }

  /** A sequence of stages logs nothing exactly when none of its stages is switched on. */
  lemma {:induction false} StagesLogEmpty(f: Flags, outcome: Stage -> StageRun, stages: seq<Stage>)
    ensures StagesLog(f, outcome, stages) == [] <==> forall s :: s in stages ==> !Enabled(f, s)
  {
    if stages != [] {
      StagesLogEmpty(f, outcome, stages[1..]);
      assert forall s :: s in stages <==> s == stages[0] || s in stages[1..];
    }
  }

  /** The stages that run and raise, in order. */
  function Failures(f: Flags, outcome: Stage -> StageRun, stages: seq<Stage>): (r: seq<Stage>)
    ensures |r| <= |stages|
    ensures forall s :: s in r <==> s in stages && Enabled(f, s) && outcome(s).result.Raised?
  {
    if stages == [] then []
    else
      assert forall s :: s in stages <==> s == stages[0] || s in stages[1..];
      (if Enabled(f, stages[0]) && outcome(stages[0]).result.Raised? then [stages[0]] else []) +
         Failures(f, outcome, stages[1..])
  }

  /** What the bodies of the stages that run log themselves, in order. */
  function BodyLog(f: Flags, outcome: Stage -> StageRun, stages: seq<Stage>): (r: seq<Entry>)
    ensures (forall s :: s in stages ==> outcome(s).logged == []) ==> r == []
  {
    if stages == [] then []
    else
      assert stages[0] in stages;
      (if Enabled(f, stages[0]) then outcome(stages[0]).logged else []) + BodyLog(f, outcome, stages[1..])
  }

  lemma {:induction false} StagesLogAppend(f: Flags, outcome: Stage -> StageRun, a: seq<Stage>, b: seq<Stage>)
    ensures StagesLog(f, outcome, a + b) == StagesLog(f, outcome, a) + StagesLog(f, outcome, b)
  {
    if a == [] {
      assert a + b == b;
    } else {
      assert (a + b)[1..] == a[1..] + b;
      StagesLogAppend(f, outcome, a[1..], b);
    }
  }

  /** Fixed order: the entries of the stage at position k come after those of every earlier
      stage and before those of every later one. */
  lemma StagesLogAt(f: Flags, outcome: Stage -> StageRun, stages: seq<Stage>, k: nat)
    requires k < |stages|
    ensures StagesLog(f, outcome, stages) ==
      StagesLog(f, outcome, stages[..k]) + Block(f, outcome, stages[k]) +
      StagesLog(f, outcome, stages[k + 1..])
  {
    assert stages == stages[..k] + ([stages[k]] + stages[k + 1..]);
    StagesLogAppend(f, outcome, stages[..k], [stages[k]] + stages[k + 1..]);
    assert ([stages[k]] + stages[k + 1..])[1..] == stages[k + 1..];
  }

  /** The entries of a sequence of stages depend only on what those stages did. */
  lemma {:induction false} StagesLogLocal(f: Flags, outcome: Stage -> StageRun,
                                          other: Stage -> StageRun, stages: seq<Stage>)
    requires forall s :: s in stages ==> outcome(s) == other(s)
    ensures StagesLog(f, outcome, stages) == StagesLog(f, other, stages)
  {
    if stages != [] {
      assert stages[0] in stages;
      StagesLogLocal(f, outcome, other, stages[1..]);
    }
  }

  /** A stage that runs and raises appends its start entry, whatever its body logged, and
      then exactly ERROR, DEBUG, DEBUG, between the entries of the stages before it and those
      of the stages after it. */
  lemma FailureContinues(f: Flags, outcome: Stage -> StageRun, k: nat)
    requires k < |StageOrder| && Enabled(f, StageOrder[k]) && outcome(StageOrder[k]).result.Raised?
    ensures var s := StageOrder[k]; var run := outcome(s);
      StagesLog(f, outcome, StageOrder) ==
        StagesLog(f, outcome, StageOrder[..k]) +
        ([Entry(Info, StartMessage(s))] + run.logged +
         [Entry(Error, FailedMessage(s)), Entry(Debug, run.result.error), Entry(Debug, run.result.trace)]) +
        StagesLog(f, outcome, StageOrder[k + 1..])
  {
    StagesLogAt(f, outcome, StageOrder, k);
  }

  /** With the other stages' outcomes fixed, what the stage at position k does leaves their
      entries unchanged: the entry point never skips a stage because an earlier one raised. */
  lemma OtherStagesUnaffected(f: Flags, outcome: Stage -> StageRun, k: nat, run: StageRun)
    requires k < |StageOrder|
    ensures var changed := t => if t == StageOrder[k] then run else outcome(t);
      && StagesLog(f, outcome, StageOrder[..k]) == StagesLog(f, changed, StageOrder[..k])
      && StagesLog(f, outcome, StageOrder[k + 1..]) == StagesLog(f, changed, StageOrder[k + 1..])
  {
    var changed := t => if t == StageOrder[k] then run else outcome(t);
    forall t | t in StageOrder[..k] ensures outcome(t) == changed(t) {
      var i :| 0 <= i < k && StageOrder[i] == t;
    }
    forall t | t in StageOrder[k + 1..] ensures outcome(t) == changed(t) {
      var i :| k + 1 <= i < |StageOrder| && StageOrder[i] == t;
    }
    StagesLogLocal(f, outcome, changed, StageOrder[..k]);
    StagesLogLocal(f, outcome, changed, StageOrder[k + 1..]);
  }

  /** The ERROR count of closing entries of the shape a stage logs, whatever their messages. */
  lemma ClosingErrors(log: seq<Entry>)
    requires |log| == 1 || |log| == 3
    requires |log| == 1 ==> log[0].severity == Info
    requires |log| == 3 ==> log[0].severity == Error && log[1].severity == Debug && log[2].severity == Debug
    ensures CountSeverity(Error, log) == if |log| == 3 then 1 else 0
  {
    if |log| == 3 {
      assert log[1..][1..] == log[2..];
      assert CountSeverity(Error, log) == 1 + CountSeverity(Error, log[1..]);
      assert CountSeverity(Error, log[1..]) == CountSeverity(Error, log[2..]);
      assert log[2..][1..] == [];
      assert CountSeverity(Error, log[2..]) == CountSeverity(Error, []);
    } else {
      assert CountSeverity(Error, log) == CountSeverity(Error, log[1..]);
      assert log[1..] == [];
    }
  }

  /** A stage's block holds the ERROR entries its body logged, plus one if it raised. */
  lemma StageErrors(s: Stage, run: StageRun)
    ensures CountSeverity(Error, StageLog(s, run)) ==
      CountSeverity(Error, run.logged) + if run.result.Raised? then 1 else 0
  {
    var start := [Entry(Info, StartMessage(s))];
    var closing := Closing(s, run.result);
    CountSeverityAppend(Error, start + run.logged, closing);
    CountSeverityAppend(Error, start, run.logged);
    assert CountSeverity(Error, start) == CountSeverity(Error, start[1..]);
    assert start[1..] == [];
    ClosingErrors(closing);
  }

  /** Every ERROR entry of the stage log comes either from a stage's body or from the entry
      point's handler of a stage that ran and raised, one per such stage. */
  lemma {:induction false} ErrorsAreFailures(f: Flags, outcome: Stage -> StageRun, stages: seq<Stage>)
    ensures CountSeverity(Error, StagesLog(f, outcome, stages)) ==
      |Failures(f, outcome, stages)| + CountSeverity(Error, BodyLog(f, outcome, stages))
  {
    if stages != [] {
      var s := stages[0];
      var body := if Enabled(f, s) then outcome(s).logged else [];
      CountSeverityAppend(Error, Block(f, outcome, s), StagesLog(f, outcome, stages[1..]));
      CountSeverityAppend(Error, body, BodyLog(f, outcome, stages[1..]));
      ErrorsAreFailures(f, outcome, stages[1..]);
      StageErrors(s, outcome(s));
    }
  }

  /** The entry point's handler of one stage: the done entry, or the failure entries. */
  method LogClosing(report: Report, s: Stage, c: Call<bool>)
    modifies report`entries
    ensures report.entries == old(report.entries) + Closing(s, c)
  {
    match c
    case Returned(v) =>
      report.Log(Info, DoneMessage(s, v));
    case Raised(e, t) =>
      report.Log(Error, FailedMessage(s));
      report.Log(Debug, e);
      report.Log(Debug, t);
      AppendThree(old(report.entries), Entry(Error, FailedMessage(s)), Entry(Debug, e), Entry(Debug, t));
  }

  /** One stage's try/except block of the entry point; the body's own entries go to the
      shared report between the start entry and the closing ones. */
  method RunStage(report: Report, f: Flags, outcome: Stage -> StageRun, s: Stage)
    modifies report`entries
    ensures report.entries == old(report.entries) + Block(f, outcome, s)
  {
    if Enabled(f, s) {
      var run := outcome(s);
      report.Log(Info, StartMessage(s));
      report.LogAll(run.logged);
      LogClosing(report, s, run.result);
      AppendBlock(old(report.entries), Entry(Info, StartMessage(s)), run.logged, Closing(s, run.result));
    }
  }

  /** Running one more stage of the fixed order appends that stage's block. */
  lemma StagesLogPrefix(f: Flags, outcome: Stage -> StageRun, k: nat)
    requires k < |StageOrder|
    ensures StagesLog(f, outcome, StageOrder[..k + 1]) ==
      StagesLog(f, outcome, StageOrder[..k]) + Block(f, outcome, StageOrder[k])
  {
    assert StageOrder[..k + 1] == StageOrder[..k] + [StageOrder[k]];
    StagesLogAppend(f, outcome, StageOrder[..k], [StageOrder[k]]);
    assert [StageOrder[k]][1..] == [];
  }

  /** The block of the k-th stage of the fixed order, after the blocks of the stages before it. */
  method RunStageAt(report: Report, f: Flags, outcome: Stage -> StageRun, ghost start: seq<Entry>, k: nat)
    requires k < |StageOrder|
    requires report.entries == start + StagesLog(f, outcome, StageOrder[..k])
    modifies report`entries
    ensures report.entries == start + StagesLog(f, outcome, StageOrder[..k + 1])
  {
    RunStage(report, f, outcome, StageOrder[k]);
    StagesLogPrefix(f, outcome, k);
    AppendAssoc(start, StagesLog(f, outcome, StageOrder[..k]), Block(f, outcome, StageOrder[k]));
  }

  /** The six stage blocks of the entry point, one after another: general, specific,
      volatile, other, scan, graph. */
  method RunStages(report: Report, f: Flags, outcome: Stage -> StageRun)
    modifies report`entries
    ensures report.entries == old(report.entries) + StagesLog(f, outcome, StageOrder)
  {
    ghost var start := report.entries;
    assert StageOrder[..0] == [];
    RunStageAt(report, f, outcome, start, 0);
    RunStageAt(report, f, outcome, start, 1);
    RunStageAt(report, f, outcome, start, 2);
    RunStageAt(report, f, outcome, start, 3);
    RunStageAt(report, f, outcome, start, 4);
    RunStageAt(report, f, outcome, start, 5);
    assert StageOrder[..6] == StageOrder;
  }
}

=== FILE: wrappers.dfy ===
/** Small value wrappers shared by every module of the model. */
module Wrappers {

  /** A value that may be absent, such as a command-line option that was not given. */
  datatype Option<T> = None | Some(value: T)

  /** What a call into code outside the model did: it returned a value, or it raised an
      exception whose text (`str(e)`) and formatted traceback are opaque strings. */
  datatype Call<T> = Returned(value: T) | Raised(error: string, trace: string)
}
